=== FILE: README.md ===
# Dual-number automatic differentiation, modelled in Dafny

This project models the `AutoDiff` class of AnnoDomini (`AnnoDomini/AutoDiff.py`). The class
does forward-mode automatic differentiation with dual numbers. A dual number is a pair
(value, derivative). Every operator builds a new pair by a calculus rule: sum, product,
quotient, power or chain rule. Some operators check their operand's domain first and raise
instead of returning.

The model is functional:

- `Duals.Dual(val, der)` is the dual number, over exact `real`s.
- `Duals.Operand = D(Dual) | Raw(real)` is the right operand. AutoDiff's operators decide
  this case by trying `other.val` and catching `AttributeError`.
- Raised exceptions become `Results.Result<T> = Ok(T) | Err(Error)`, with
  `Error = DomainError | DivByZero | IndexError`. These stand for `ValueError`,
  `ZeroDivisionError`, and the `IndexError` that packing an empty list raises.
- Dafny has no transcendental functions on `real`. So `ln`, `exp`, real power, `sqrt`,
  `arcsin` and `arccos` are fields of an `Elementary.Analytic` record that the caller passes in.
  `Elementary.Sound` states the two facts about them that the chain-rule denominators
  need: a square root of a positive number is positive, and `ln` is zero only at 1.

Modules:

- `results.dfy`: the result type.
- `duals.dfy`: the data model, construction, and packing a list of dual numbers.
- `comparison.dfy`: `==`, `!=`, `<`, `<=`, `>`, `>=`.
- `arithmetic.dfy`: `+`, `-`, `*`, `/`, `**`, their reflected forms, and unary `-`.
- `elementary.dfy`: the reflected power, `exp`, `log`, `arcsin`, `arccos`.
- `algebra.dfy`: ring identities, division round trips, and the power rule versus repeated
  products.
- `scenarios.dfy`: concrete inputs and what the engine does with them.

The logarithm has two guards, not one. The engine's own check rejects a value `<= 0`
with a domain error. The code then always calls two-argument `math.log(value, base)`, with
`np.e` as the default base. That call raises a domain error for a base `<= 0` and a
division by zero for base 1. `Elementary.Log` models both guards.
`Base.Natural` stands for the default base e of both `log` and `exp`, with ln(e) = 1.

## Model

| member | source | states |
|---|---|---|
| Duals.Make | AnnoDomini/AutoDiff.py:8-15 | a raw (value, derivative) pair is kept as given; the value defaults to 0 and the derivative to 1, seeding the value as the independent variable |
| Duals.FromList | AnnoDomini/AutoDiff.py:8-12 | packing a list gives value and derivative blocks as long as the list, with element i of each equal to list[i].val and list[i].der; an empty list raises IndexError |
| Duals.PackThenSplit | AnnoDomini/AutoDiff.py:8-12 | splitting a packed list back into pairs gives the original list |
| Duals.SplitThenPack | AnnoDomini/AutoDiff.py:8-12 | packing the pairs of a well-shaped packed dual number gives it back, so packing loses nothing |
| Comparison.Eq | AnnoDomini/AutoDiff.py:20-24 | against a dual number, `==` is identity of both components; equality always implies equal values |
| Comparison.Ne | AnnoDomini/AutoDiff.py:26-27 | against a dual number, `!=` holds exactly when the values or the derivatives differ; against a raw number, exactly when the value differs |
| Comparison.Lt | AnnoDomini/AutoDiff.py:29-33 | `<` compares values only and excludes `==` |
| Comparison.Gt | AnnoDomini/AutoDiff.py:38-42 | `>` compares values only and excludes both `==` and `<` |
| Comparison.Le | AnnoDomini/AutoDiff.py:35-36 | against a raw number `<=` is the ordinary `<=` on the value; whenever it holds the value is at most the other's |
| Comparison.Ge | AnnoDomini/AutoDiff.py:44-45 | against a raw number `>=` is the ordinary `>=` on the value; whenever it holds the value is at least the other's |
| Comparison.LeBetweenDuals | AnnoDomini/AutoDiff.py:35-45 | between dual numbers, `<=` (`>=`) holds exactly when the value is strictly smaller (larger) or the two are identical |
| Comparison.SameValueDifferentDerivative | AnnoDomini/AutoDiff.py:20-45 | equal values with different derivatives: neither `<=` nor `>=` holds in either direction, nor `<` nor `>`, and `!=` holds |
| Comparison.LePartialOrder | AnnoDomini/AutoDiff.py:35-36 | `<=` between dual numbers is reflexive, antisymmetric and transitive |
| Comparison.OrdersAreConverse | AnnoDomini/AutoDiff.py:29-45 | `a < b` iff `b > a`, and `a <= b` iff `b >= a` |
| Comparison.ValueTrichotomy | AnnoDomini/AutoDiff.py:20-42 | exactly one of `<`, `>` or equal values holds, and `==` implies equal values |
| Comparison.RawComparesAsConstant | AnnoDomini/AutoDiff.py:20-42 | comparing with a raw c is comparing with the constant dual number (c, 0), except that `==` ignores the left derivative |
| Arithmetic.Add | AnnoDomini/AutoDiff.py:47-54 | sum rule on both components; a raw operand counts as a constant, so it leaves the derivative unchanged |
| Arithmetic.RAdd | AnnoDomini/AutoDiff.py:56-57 | `c + a` shifts the value by c and keeps the derivative |
| Arithmetic.Neg | AnnoDomini/AutoDiff.py:129-132 | `-a` is the additive inverse: `(-a) + a` is the constant 0 |
| Arithmetic.Sub | AnnoDomini/AutoDiff.py:59-66 | difference rule on both components; a raw operand leaves the derivative unchanged |
| Arithmetic.RSub | AnnoDomini/AutoDiff.py:68-69 | `c - a` has value c - a.val and derivative -a.der |
| Arithmetic.Mul | AnnoDomini/AutoDiff.py:71-78 | product rule; a raw operand c scales both components by c |
| Arithmetic.RMul | AnnoDomini/AutoDiff.py:80-81 | `c * a` scales both components by c |
| Arithmetic.QuotientRule | AnnoDomini/AutoDiff.py:91-92 | for a non-zero divisor, the quotient-rule pair times the divisor gives the dividend back under the product rule |
| Arithmetic.Quotient | AnnoDomini/AutoDiff.py:91-92 | for a divisor value that is not 0, the quotient times the divisor gives the dividend back under the product rule, on value and derivative |
| Arithmetic.ScaledDown | AnnoDomini/AutoDiff.py:94-95 | for a raw c that is not 0, each component of the quotient times c gives the dividend's component back |
| Arithmetic.Div | AnnoDomini/AutoDiff.py:83-96 | fails with DivByZero exactly when the divisor's value is 0, for dual and raw divisors; otherwise the quotient times the divisor is the dividend on both components |
| Arithmetic.RDiv | AnnoDomini/AutoDiff.py:98-105 | `c / a` fails with DivByZero exactly when a.val is 0; otherwise the quotient times a is the constant c |
| Arithmetic.Pow | AnnoDomini/AutoDiff.py:107-110 | `a ** 0` is the constant 1, `a ** 1` is a, and a constant stays constant |
| Elementary.RPow | AnnoDomini/AutoDiff.py:112-127 | `n ** a`: n < 0 is exactly the DomainError case; DivByZero exactly when n = 0 and a.val < 0; n = 0 gives (0, 0) for a.val > 0 and (1, 0) for a.val = 0; n > 0 succeeds with derivative n^v ln(n) d |
| Elementary.Exp | AnnoDomini/AutoDiff.py:207-208 | `a.exp(base)` is `base ** a`: the default base e never fails and gives value e^v with derivative e^v d (ln e = 1); an explicit base gives DomainError exactly when it is negative and DivByZero exactly when it is 0 and the value is negative; a zero base gives (1, 0) at value 0 and (0, 0) for a positive value; a positive base gives value base^v and derivative base^v ln(base) d |
| Elementary.Log | AnnoDomini/AutoDiff.py:200-205 | DomainError exactly for a value <= 0 or an explicit base <= 0; DivByZero exactly for base 1; otherwise value times ln(base) is ln(v) and derivative times ln(base) v is d |
| Elementary.ArcSin | AnnoDomini/AutoDiff.py:158-167 | DomainError exactly outside [-1, 1]; DivByZero exactly at -1 and 1; otherwise derivative times sqrt(1 - v^2) is d |
| Elementary.ArcCos | AnnoDomini/AutoDiff.py:169-176 | DomainError exactly outside [-1, 1]; DivByZero exactly at -1 and 1; otherwise derivative times sqrt(1 - v^2) is -d |
| Elementary.ArcSinArcCosDerivativesCancel | AnnoDomini/AutoDiff.py:158-176 | arcsin and arccos fail on the same inputs with the same error, and their derivatives sum to 0 |
| Elementary.ArcSinLinearInSeed | AnnoDomini/AutoDiff.py:158-167 | the arcsin derivative is proportional to the incoming derivative, with a factor that depends on the value only |
| Elementary.ArcCosLinearInSeed | AnnoDomini/AutoDiff.py:169-176 | the arccos derivative is proportional to the incoming derivative, with a factor that depends on the value only |
| Elementary.LogLinearInSeed | AnnoDomini/AutoDiff.py:200-205 | the log derivative is proportional to the incoming derivative, in every base |
| Elementary.RPowLinearInSeed | AnnoDomini/AutoDiff.py:112-127 | whether `n ** a` fails, and its value, depend only on a.val; its derivative is proportional to the incoming derivative |
| Elementary.LogChangeOfBase | AnnoDomini/AutoDiff.py:200-205 | for a positive value and a valid base b, the base-b logarithm times ln(b) is the natural logarithm, on value and derivative |
| Algebra.AddCommutes | AnnoDomini/AutoDiff.py:47-54 | `a + b == b + a` on both components |
| Algebra.RawAddCommutes | AnnoDomini/AutoDiff.py:47-57 | `c + a == a + c`, which is adding the constant dual number (c, 0) |
| Algebra.AddAssociates | AnnoDomini/AutoDiff.py:47-54 | addition is associative |
| Algebra.SubSelfIsZero | AnnoDomini/AutoDiff.py:59-66 | `a - a` has value 0 and derivative 0 |
| Algebra.SubIsAddNeg | AnnoDomini/AutoDiff.py:59-66 | `a - b` is `a + (-b)` for a dual b, and `a + (-c)` for a raw c |
| Algebra.RSubIsNegatedSub | AnnoDomini/AutoDiff.py:68-69 | `c - a` is `-(a - c)`, and it is the constant (c, 0) minus a |
| Algebra.NegInvolution | AnnoDomini/AutoDiff.py:129-132 | `-(-a) == a`, and `-a` is `a * (-1)` |
| Algebra.MulCommutes | AnnoDomini/AutoDiff.py:71-78 | `a * b == b * a` on both components |
| Algebra.RawMulCommutes | AnnoDomini/AutoDiff.py:71-81 | `c * a == a * c`, which is the product rule with the constant dual number (c, 0) |
| Algebra.MulAssociates | AnnoDomini/AutoDiff.py:71-78 | the product rule is associative |
| Algebra.MulDistributes | AnnoDomini/AutoDiff.py:47-78 | multiplication distributes over addition |
| Algebra.Identities | AnnoDomini/AutoDiff.py:47-78 | the constant 1 is the multiplicative identity and the constant 0 the additive one |
| Algebra.RawDivIsConstDiv | AnnoDomini/AutoDiff.py:83-96 | dividing by a raw c is dividing by the constant dual number (c, 0), including its zero check |
| Algebra.DivThenMul | AnnoDomini/AutoDiff.py:83-96 | for b.val != 0 the division succeeds and `(a / b) * b == a` on value and derivative |
| Algebra.MulThenDiv | AnnoDomini/AutoDiff.py:71-96 | for b.val != 0, `(a * b) / b == a` on value and derivative |
| Algebra.RDivIsConstDiv | AnnoDomini/AutoDiff.py:83-105 | reflected `c / a` is the constant (c, 0) divided by a, failures included |
| Algebra.PowStep | AnnoDomini/AutoDiff.py:107-110 | `a ** n == (a ** (n - 1)) * a` for n >= 1, so the power rule is one product-rule step |
| Algebra.PowIsRepeatedMul | AnnoDomini/AutoDiff.py:107-110 | `a ** n` equals the n-fold product of a under the product rule, on value and derivative |
| Scenarios.ReflectedPowExamples | AnnoDomini/AutoDiff.py:112-127 | `0 ** Dual(-1)` divides by zero, `(-2) ** Dual(x)` is a domain error, `0 ** Dual(0, d)` is 1 and `0 ** Dual(3, d)` is 0 |
| Scenarios.LogExamples | AnnoDomini/AutoDiff.py:200-205 | `Dual(-1).log()`, `Dual(0).log()` and `Dual(2).log(-1)` are domain errors, `Dual(2).log(1)` divides by zero, and `Dual(2).log()` succeeds |
| Scenarios.InverseTrigExamples | AnnoDomini/AutoDiff.py:158-176 | arcsin and arccos divide by zero at both endpoints -1 and 1, 2 is outside both domains, and at 0 a unit seed gives an arcsin derivative of 1 / sqrt(1) |
| Scenarios.DivisionByZeroExamples | AnnoDomini/AutoDiff.py:83-105 | dividing by a raw 0 or a zero-valued dual number fails, even if that number has a non-zero derivative |
| Scenarios.PackingExample | AnnoDomini/AutoDiff.py:8-15 | `[Dual(1, 1), Dual(2, 0)]` packs to values [1, 2] and derivatives [1, 0]; `[]` raises IndexError; `AutoDiff()` is (0, 1) |
| Scenarios.SeedingExample | AnnoDomini/AutoDiff.py:59-110 | with x = Dual(3, 1): `x * x` = (9, 6), `x ** 3` = (27, 27), `x - x` = (0, 0) |

## Left out

- numpy integer types: values are exact reals, so an integer input stored as an int64 array is not modelled. Its silent wrap-around past 2^63 (for example `AutoDiff(10) ** 20`) is not modelled, and neither is numpy's ValueError for an integer raised to a negative integer power.
- Elementary.RPow: a positive base succeeds in the model. With integer operands such as `2 ** AutoDiff(-1)`, numpy raises a ValueError at AutoDiff.py:114 instead.
- Floating point: values are exact reals. NaN, infinities and rounding are not modelled. The round trips in `Algebra` hold exactly here and only approximately in floating point.
- numpy arrays and broadcasting: operands are scalars. Vectors appear only as the two blocks of a packed list. A raw list of numbers passed to the constructor, which becomes an array, is not modelled.
- `sin`, `cos`, `tan`, `sinh`, `cosh`, `tanh`, `arctan`, `logistic` (AutoDiff.py:137-198, 210-213): their values are transcendental. None has a domain check apart from the `tan` pole test and the `tanh` guard below.
- The `tan` pole test (AutoDiff.py:148): it depends on floating-point `%` on multiples of pi.
- The `tanh` zero-`cosh` guard (AutoDiff.py:194): no real input reaches it.
- `sqrt` (AutoDiff.py:134-135): its exponent 0.5 is not a natural number.
- `__pow__` with a negative, fractional or dual exponent: `Arithmetic.Pow` takes a natural exponent.
- Arithmetic.Pow: for n = 0 `__pow__` computes the derivative as 0 * v^(-1) * d. That is NaN in floating point when v = 0, and an error for integer arrays. The model gives 0. The contract of `Pow` itself states only the n = 0 and n = 1 cases and constancy; the general power rule is stated by `Algebra.PowStep` and `Algebra.PowIsRepeatedMul`.
- `__repr__`: diagnostics only.
- Transcendental values (`ln`, `exp`, real power, `sqrt`, `arcsin`, `arccos`): these are fields of an `Analytic` record passed by the caller. Only the domain guards and the chain-rule shape are modelled.
- Elementary.Exp: the default base `np.e` is modelled as `Natural`, reaching `e.exp` directly rather than through `e.power(e, v)` and `ln(e)`; the two agree only up to floating-point rounding, which is not modelled.
- Comparisons with a raw number on the left (`3 < a`): Python reflects them onto the dual number's `>`, `<`, `>=`, `<=`, which are modelled.
- The bare `except:` in `__eq__`, `__lt__` and `__gt__`: with typed operands, the only failure is a missing `.val`, which the `Raw` case of `Operand` models.
- The DFP quasi-Newton optimizer and its test (tests/test_DFP.py): DFP is not part of this model, and the test checks numeric convergence of floating-point iterations.

=== FILE: algebra.dfy ===
/** Algebraic identities of the dual-number operators.

    Dual numbers over the reals form a commutative ring, with addition and
    multiplication exactly as the engine computes them. Subtraction, negation
    and division are the ring's inverses, and the power rule agrees with
    repeated use of the product rule.
 */
module Algebra {
  import opened Results
  import opened Duals
  import opened Arithmetic

  /** `a + b == b + a` on both components. */
  lemma AddCommutes(a: Dual, b: Dual)
    ensures Add(a, D(b)) == Add(b, D(a))
  {
  }

  /** `c + a == a + c` for a raw `c`: the reflected sum agrees with the direct
      one, and with adding the constant dual number `c`. */
  lemma RawAddCommutes(c: real, a: Dual)
    ensures RAdd(c, a) == Add(a, Raw(c))
    ensures RAdd(c, a) == Add(Const(c), D(a))
  {
  }

  /** Addition is associative. */
  lemma AddAssociates(a: Dual, b: Dual, c: Dual)
    ensures Add(Add(a, D(b)), D(c)) == Add(a, D(Add(b, D(c))))
  {
  }

  /** `a - a` is the zero dual number. */
  lemma SubSelfIsZero(a: Dual)
    ensures Sub(a, D(a)) == Const(0.0)
  {
  }

  /** Subtraction is addition of the negation, for dual and raw operands. */
  lemma SubIsAddNeg(a: Dual, b: Operand)
    ensures b.D? ==> Sub(a, b) == Add(a, D(Neg(b.x)))
    ensures b.Raw? ==> Sub(a, b) == Add(a, Raw(-b.c))
  {
  }

  /** `c - a` for a raw `c` is the negation of `a - c`, so its derivative is
      the negated derivative of `a`. */
  lemma RSubIsNegatedSub(c: real, a: Dual)
    ensures RSub(c, a) == Neg(Sub(a, Raw(c)))
    ensures RSub(c, a) == Sub(Const(c), D(a))
  {
  }

  /** Negation is an involution, and it is multiplication by the raw -1. */
  lemma NegInvolution(a: Dual)
    ensures Neg(Neg(a)) == a
    ensures Neg(a) == Mul(a, Raw(-1.0))
  {
  }

  /** `a * b == b * a` on both components. */
  lemma MulCommutes(a: Dual, b: Dual)
    ensures Mul(a, D(b)) == Mul(b, D(a))
  {
  }

  /** `c * a == a * c` for a raw `c`, and a raw factor is the constant dual
      number `c`: the product rule with a zero derivative reduces to scaling. */
  lemma RawMulCommutes(c: real, a: Dual)
    ensures RMul(c, a) == Mul(a, Raw(c))
    ensures RMul(c, a) == Mul(Const(c), D(a))
  {
  }

  /** Multiplication is associative (product rule applied twice either way). */
  lemma MulAssociates(a: Dual, b: Dual, c: Dual)
    ensures Mul(Mul(a, D(b)), D(c)) == Mul(a, D(Mul(b, D(c))))
  {
  }

  /** Multiplication distributes over addition. */
  lemma MulDistributes(a: Dual, b: Dual, c: Dual)
    ensures Mul(a, D(Add(b, D(c)))) == Add(Mul(a, D(b)), D(Mul(a, D(c))))
  {
  }

  /** The constant 1 is the multiplicative identity and 0 the additive one. */
  lemma Identities(a: Dual)
    ensures Mul(a, D(Const(1.0))) == a
    ensures Add(a, D(Const(0.0))) == a
  {
  }

  /** Dividing by a raw number is dividing by the constant dual number with
      that value: the quotient rule with a zero derivative reduces to dividing
      both components, and the zero checks agree. */
  lemma RawDivIsConstDiv(a: Dual, c: real)
    ensures Div(a, Raw(c)) == Div(a, D(Const(c)))
  {
    if c != 0.0 {
      var q := Div(a, D(Const(c))).value;
      assert q.der * c == a.der;
      assert q.der == a.der / c;
    }
  }

  /** Round trip `(a / b) * b == a` on value and derivative, for a divisor
      whose value is not 0. */
  lemma DivThenMul(a: Dual, b: Dual)
    requires b.val != 0.0
    ensures Div(a, D(b)).Ok?
    ensures Mul(Div(a, D(b)).value, D(b)) == a
  {
  }

  /** Round trip `(a * b) / b == a` on value and derivative, for a divisor
      whose value is not 0. */
  lemma MulThenDiv(a: Dual, b: Dual)
    requires b.val != 0.0
    ensures Div(Mul(a, D(b)), D(b)) == Ok(a)
  {
    var p := Mul(a, D(b));
    var q := Div(p, D(b)).value;
    assert (q.val - a.val) * b.val == 0.0;
    assert q.val == a.val;
    assert q.der * b.val + q.val * b.der == a.der * b.val + a.val * b.der;
    assert (q.der - a.der) * b.val == 0.0;
    assert q.der == a.der;
  }

  /** Reflected division `c / a` is dividing the constant dual number `c` by
      `a`, including when it fails. */
  lemma RDivIsConstDiv(c: real, a: Dual)
    ensures RDiv(c, a) == Div(Const(c), D(a))
  {
    if a.val != 0.0 {
      var r := RDiv(c, a).value;
      var q := Div(Const(c), D(a)).value;
      assert r.val == q.val;
      assert r.der * a.val == q.der * a.val;
    }
  }

  /** `a ** n` computed by repeated multiplication: 1 for n = 0, and one more
      factor `a` under the product rule for each increment. */
  function RepeatedMul(a: Dual, n: nat): Dual {
    if n == 0 then Const(1.0) else Mul(RepeatedMul(a, n - 1), D(a))
  }

  /** One step of the power rule is one application of the product rule:
      `a ** n == (a ** (n - 1)) * a`. */
  lemma PowStep(a: Dual, n: nat)
    requires n >= 1
    ensures Pow(a, n) == Mul(Pow(a, n - 1), D(a))
  {
  }

  /** The power rule agrees with repeated use of the product rule. */
  lemma {:induction false} PowIsRepeatedMul(a: Dual, n: nat)
    ensures Pow(a, n) == RepeatedMul(a, n)
  {
    if n > 0 {
      PowIsRepeatedMul(a, n - 1);
      PowStep(a, n);
    }
  }
}

=== FILE: arithmetic.dfy ===
/** Arithmetic operators of the dual-number engine.

    Every operator builds a new dual number by a rule of calculus: the sum
    rule, the product rule, the quotient rule and the power rule. A raw right
    operand is a constant: it shifts or scales the value and contributes no
    derivative of its own. Division checks its divisor before computing
    anything and fails with DivByZero on an exact zero.
 */
module Arithmetic {
  import opened Results
  import opened Duals

  /** `x` raised to the natural power `n`. */
  function RealPow(x: real, n: nat): real {
    if n == 0 then 1.0 else x * RealPow(x, n - 1)
  }

  /** `a + b`: sum rule; a raw `b` shifts the value only. */
  function Add(a: Dual, b: Operand): (r: Dual)
    ensures r.val == a.val + Lift(b).val && r.der == a.der + Lift(b).der
    ensures b.Raw? ==> r.der == a.der
  {
    match b
    case D(x) => Dual(a.val + x.val, a.der + x.der)
    case Raw(c) => Dual(a.val + c, a.der)
  }

  /** `c + a` for a raw `c`, reflected onto `a + c`. */
  function RAdd(c: real, a: Dual): (r: Dual)
    ensures r.val == c + a.val && r.der == a.der
  {
    Add(a, Raw(c))
  }

  /** `-a`: negates both components. */
  function Neg(a: Dual): (r: Dual)
    ensures Add(r, D(a)) == Const(0.0)
  {
    Dual(-a.val, -a.der)
  }

  /** `a - b`: difference rule; a raw `b` shifts the value only. */
  function Sub(a: Dual, b: Operand): (r: Dual)
    ensures r.val == a.val - Lift(b).val && r.der == a.der - Lift(b).der
    ensures b.Raw? ==> r.der == a.der
  {
    match b
    case D(x) => Dual(a.val - x.val, a.der - x.der)
    case Raw(c) => Dual(a.val - c, a.der)
  }

  /** `c - a` for a raw `c`, computed as `(-a) + c`. */
  function RSub(c: real, a: Dual): (r: Dual)
    ensures r.val == c - a.val && r.der == -a.der
  {
    Add(Neg(a), Raw(c))
  }

  /** `a * b`: product rule; a raw `b` scales both components. */
  function Mul(a: Dual, b: Operand): (r: Dual)
    ensures r.val == a.val * Lift(b).val
    ensures r.der == a.der * Lift(b).val + a.val * Lift(b).der
    ensures b.Raw? ==> r.val == b.c * a.val && r.der == b.c * a.der
  {
    match b
    case D(x) => Dual(a.val * x.val, a.der * x.val + a.val * x.der)
    case Raw(c) => Dual(a.val * c, a.der * c)
  }

  /** `c * a` for a raw `c`, reflected onto `a * c`. */
  function RMul(c: real, a: Dual): (r: Dual)
    ensures r.val == c * a.val && r.der == c * a.der
  {
    Mul(a, Raw(c))
  }

  /** The quotient rule for a non-zero divisor value `v2`, stated by what it
      guarantees: the quotient times the divisor gives the dividend back under
      the product rule. */
  lemma QuotientRule(v1: real, d1: real, v2: real, d2: real)
    requires v2 != 0.0
    ensures (v1 / v2) * v2 == v1
    ensures ((d1 * v2 - d2 * v1) / (v2 * v2)) * v2 + (v1 / v2) * d2 == d1
  {
  }

  /** The quotient-rule pair of `a / x` for a divisor value that is not 0. */
  function Quotient(a: Dual, x: Dual): (q: Dual)
    requires x.val != 0.0
    ensures q.val * x.val == a.val
    ensures q.der * x.val + q.val * x.der == a.der
  {
    QuotientRule(a.val, a.der, x.val, x.der);
    Dual(a.val / x.val, (a.der * x.val - x.der * a.val) / (x.val * x.val))
  }

  /** `a / c` for a raw `c` that is not 0: both components divided by `c`. */
  function ScaledDown(a: Dual, c: real): (q: Dual)
    requires c != 0.0
    ensures q.val * c == a.val && q.der * c == a.der
  {
    Dual(a.val / c, a.der / c)
  }

  /** `a / b`: fails with DivByZero exactly when the divisor's value is 0,
      for a dual divisor and a raw one alike; otherwise the quotient rule,
      which a raw divisor reduces to dividing both components. */
  function Div(a: Dual, b: Operand): (r: Result<Dual>)
    ensures r.Err? <==> Lift(b).val == 0.0
    ensures r.Err? ==> r.error == DivByZero
    ensures r.Ok? ==> r.value.val * Lift(b).val == a.val
    ensures r.Ok? ==> r.value.der * Lift(b).val + r.value.val * Lift(b).der == a.der
  {
    match b
    case D(x) =>
      if x.val == 0.0 then Err(DivByZero) else Ok(Quotient(a, x))
    case Raw(c) =>
      if c == 0.0 then Err(DivByZero) else Ok(ScaledDown(a, c))
  }

  /** `c / a` for a raw `c`: fails with DivByZero exactly when `a`'s value is
      0; otherwise the quotient times `a` is the constant `c`. */
  function RDiv(c: real, a: Dual): (r: Result<Dual>)
    ensures r.Err? <==> a.val == 0.0
    ensures r.Err? ==> r.error == DivByZero
    ensures r.Ok? ==> r.value.val * a.val == c
    ensures r.Ok? ==> r.value.der * a.val + r.value.val * a.der == 0.0
  {
    if a.val == 0.0 then Err(DivByZero)
    else
      QuotientRule(c, 0.0, a.val, a.der);
      Ok(Dual(c / a.val, -(c * a.der) / (a.val * a.val)))
  }

  /** `a ** n` for a natural exponent `n`: power rule. */
  function Pow(a: Dual, n: nat): (r: Dual)
    ensures n == 0 ==> r == Const(1.0)
    ensures n == 1 ==> r == a
    ensures a.der == 0.0 ==> r.der == 0.0
  {
    Dual(RealPow(a.val, n),
         if n == 0 then 0.0 else (n as real) * RealPow(a.val, n - 1) * a.der)
  }
}

=== FILE: comparison.dfy ===
/** Comparison operators of the dual-number engine.

    Equality between two dual numbers is exact on both components; against a
    raw number it looks at the value only. Strict order looks at values only,
    and the non-strict orders are "strictly ordered, or equal" — so two dual
    numbers with the same value and different derivatives are neither `<=` nor
    `>=` each other.
 */
module Comparison {
  import opened Duals

  /** `==`: both components against a dual number, the value against a raw one. */
  predicate Eq(a: Dual, b: Operand)
    ensures b.D? ==> (Eq(a, b) <==> a == b.x)
    ensures Eq(a, b) ==> a.val == Lift(b).val
  {
    match b
    case D(x) => a.val == x.val && a.der == x.der
    case Raw(c) => a.val == c
  }

  /** `!=`: the negation of `==`. */
  predicate Ne(a: Dual, b: Operand)
    ensures b.D? ==> (Ne(a, b) <==> a.val != b.x.val || a.der != b.x.der)
    ensures b.Raw? ==> (Ne(a, b) <==> a.val != b.c)
  {
    !Eq(a, b)
  }

  /** `<`: values only. */
  predicate Lt(a: Dual, b: Operand)
    ensures Lt(a, b) ==> !Eq(a, b)
  {
    match b
    case D(x) => a.val < x.val
    case Raw(c) => a.val < c
  }

  /** `>`: values only. */
  predicate Gt(a: Dual, b: Operand)
    ensures Gt(a, b) ==> !Eq(a, b) && !Lt(a, b)
  {
    match b
    case D(x) => a.val > x.val
    case Raw(c) => a.val > c
  }

  /** `<=`: strictly less, or equal in the sense of `==`. */
  predicate Le(a: Dual, b: Operand)
    ensures b.Raw? ==> (Le(a, b) <==> a.val <= b.c)
    ensures Le(a, b) ==> a.val <= Lift(b).val
  {
    Lt(a, b) || Eq(a, b)
  }

  /** `>=`: strictly greater, or equal in the sense of `==`. */
  predicate Ge(a: Dual, b: Operand)
    ensures b.Raw? ==> (Ge(a, b) <==> a.val >= b.c)
    ensures Ge(a, b) ==> a.val >= Lift(b).val
  {
    Gt(a, b) || Eq(a, b)
  }

  /** Between dual numbers, `<=` holds exactly when the value is strictly
      smaller or the two numbers are identical. */
  lemma LeBetweenDuals(a: Dual, b: Dual)
    ensures Le(a, D(b)) <==> a.val < b.val || a == b
    ensures Ge(a, D(b)) <==> a.val > b.val || a == b
  {
  }

  /** Equal values with different derivatives: neither `<=` nor `>=` holds
      either way, although neither `<` nor `>` holds either. */
  lemma SameValueDifferentDerivative(a: Dual, b: Dual)
    requires a.val == b.val && a.der != b.der
    ensures !Le(a, D(b)) && !Le(b, D(a)) && !Ge(a, D(b)) && !Ge(b, D(a))
    ensures !Lt(a, D(b)) && !Gt(a, D(b)) && Ne(a, D(b))
  {
  }

  /** `<=` between dual numbers is a partial order: reflexive, antisymmetric
      and transitive (but not total, by SameValueDifferentDerivative). */
  lemma LePartialOrder(a: Dual, b: Dual, c: Dual)
    ensures Le(a, D(a))
    ensures Le(a, D(b)) && Le(b, D(a)) ==> a == b
    ensures Le(a, D(b)) && Le(b, D(c)) ==> Le(a, D(c))
  {
  }

  /** `<` and `>` are converse relations between dual numbers, and `<=` and
      `>=` are too. */
  lemma OrdersAreConverse(a: Dual, b: Dual)
    ensures Lt(a, D(b)) <==> Gt(b, D(a))
    ensures Le(a, D(b)) <==> Ge(b, D(a))
  {
  }

  /** For any two dual numbers exactly one of `<`, `>` and "same value" holds;
      `==` is the finer relation inside the last case. */
  lemma ValueTrichotomy(a: Dual, b: Dual)
    ensures Lt(a, D(b)) || Gt(a, D(b)) || a.val == b.val
    ensures !(Lt(a, D(b)) && Gt(a, D(b)))
    ensures Eq(a, D(b)) ==> a.val == b.val
  {
  }

  /** Against a raw number, comparing a dual number is comparing its value
      with a constant dual number, except that `==` forgets the derivative. */
  lemma RawComparesAsConstant(a: Dual, c: real)
    ensures Lt(a, Raw(c)) <==> Lt(a, D(Const(c)))
    ensures Gt(a, Raw(c)) <==> Gt(a, D(Const(c)))
    ensures Eq(a, Raw(c)) <==> Eq(Const(a.val), D(Const(c)))
  {
  }
}

=== FILE: duals.dfy ===
/** The dual number of forward-mode automatic differentiation and its
    constructors (the `AutoDiff` class of AnnoDomini/AutoDiff.py).

    A dual number carries a primal value and the derivative of that value with
    respect to whichever input the caller seeded. Scalars are exact `real`s;
    floating point is not modelled.
 */
module Duals {
  import opened Results

  /** A (value, derivative) pair. */
  datatype Dual = Dual(val: real, der: real)

  /** The right-hand operand of a binary operator. AutoDiff's operators decide
      between the two cases by attempting to read `other.val` and falling back
      on an `AttributeError`; here the case is explicit. */
  datatype Operand = D(x: Dual) | Raw(c: real)

  /** Construction from a raw (value, derivative) pair. The value defaults to
      0 and the derivative to 1, seeding the value as the independent variable
      itself. */
  function Make(val: real := 0.0, der: real := 1.0): (r: Dual)
    ensures r.val == val && r.der == der
  {
    Dual(val, der)
  }

  /** A constant: a value whose derivative with respect to every input is 0. */
  function Const(c: real): Dual {
    Dual(c, 0.0)
  }

  /** The dual number an operand stands for. A raw operand is a constant, so
      every binary operator treats its derivative as 0. */
  function Lift(b: Operand): Dual {
    match b
    case D(x) => x
    case Raw(c) => Const(c)
  }

  /** The vector-valued dual number obtained by stacking a list of scalar ones. */
  datatype Packed = Packed(vals: seq<real>, ders: seq<real>)

  /** A packed dual number is well formed when its two blocks have the same
      non-zero length (AutoDiff's constructor never builds an empty one from a list). */
  predicate WellShaped(p: Packed) {
    |p.vals| == |p.ders| && |p.vals| > 0
  }

  /** Construction from a list of dual numbers: the values and the derivatives
      are stacked element-wise. AutoDiff's constructor reads `val[0]` to decide that the
      argument is a list of dual numbers, so an empty list raises IndexError. */
  function FromList(list: seq<Dual>): (r: Result<Packed>)
    ensures r.Err? <==> |list| == 0
    ensures r.Err? ==> r.error == IndexError
    ensures r.Ok? ==> WellShaped(r.value) && |r.value.vals| == |list|
    ensures r.Ok? ==> forall i :: 0 <= i < |list| ==>
                        r.value.vals[i] == list[i].val && r.value.ders[i] == list[i].der
  {
    if |list| == 0 then Err(IndexError)
    else Ok(Packed(seq(|list|, i requires 0 <= i < |list| => list[i].val),
                   seq(|list|, i requires 0 <= i < |list| => list[i].der)))
  }

  /** The scalar dual numbers a well-shaped packed one is made of: element i
      pairs the i-th value with the i-th derivative. */
  function Components(p: Packed): seq<Dual>
    requires |p.vals| == |p.ders|
  {
    seq(|p.vals|, i requires 0 <= i < |p.vals| => Dual(p.vals[i], p.ders[i]))
  }

  /** Packing then splitting gives the list back. */
  lemma PackThenSplit(list: seq<Dual>)
    requires |list| > 0
    ensures FromList(list).Ok?
    ensures Components(FromList(list).value) == list
  {
  }

  /** Splitting a well-shaped packed dual number then packing the pieces gives
      it back, so packing loses nothing. */
  lemma SplitThenPack(p: Packed)
    requires WellShaped(p)
    ensures FromList(Components(p)) == Ok(p)
  {
    var r := FromList(Components(p)).value;
    assert r.vals == p.vals;
    assert r.ders == p.ders;
  }
}

=== FILE: elementary.dfy ===
/** Elementary functions of the dual-number engine that check their domain:
    the reflected power `n ** a` (and `exp`, which is `base ** a`), `log`,
    `arcsin` and `arccos`.

    Dafny has no transcendental functions on `real`, so their values come from
    an `Analytic` record passed in by the caller. Only what the engine itself
    decides is modelled: which inputs raise which error, and how the chain
    rule combines those values with the incoming derivative.
 */
module Elementary {
  import opened Results
  import opened Duals

  /** The numeric library the engine calls into: natural logarithm, natural
      exponential, real power, square root, arcsine and arccosine. */
  datatype Analytic = Analytic(
    ln: real -> real,
    exp: real -> real,
    power: (real, real) -> real,
    sqrt: real -> real,
    asin: real -> real,
    acos: real -> real)

  /** The two facts about the library that make the chain-rule denominators
      well defined: square roots of positive numbers are positive, and the
      logarithm vanishes at 1 only. */
  ghost predicate Sound(e: Analytic) {
    && (forall x :: 0.0 < x ==> 0.0 < e.sqrt(x))
    && (forall x :: 0.0 < x && x != 1.0 ==> e.ln(x) != 0.0)
  }

  /** `n ** a` for a raw base `n`. A positive base follows the chain rule
      d(n^v) = n^v ln(n) dv. A negative base fails with DomainError. A zero
      base gives 0 for a positive exponent, 1 for a zero exponent, and fails
      with DivByZero for a negative exponent. */
  function RPow(e: Analytic, n: real, a: Dual): (r: Result<Dual>)
    ensures r == Err(DomainError) <==> n < 0.0
    ensures r == Err(DivByZero) <==> n == 0.0 && a.val < 0.0
    ensures n == 0.0 && a.val > 0.0 ==> r == Ok(Const(0.0))
    ensures n == 0.0 && a.val == 0.0 ==> r == Ok(Const(1.0))
    ensures n > 0.0 ==> r.Ok? && r.value.val == e.power(n, a.val)
                        && r.value.der == r.value.val * e.ln(n) * a.der
  {
    if n > 0.0 then
      Ok(Dual(e.power(n, a.val), e.power(n, a.val) * e.ln(n) * a.der))
    else if n < 0.0 then
      Err(DomainError)
    else if a.val > 0.0 then
      Ok(Dual(0.0, 0.0))
    else if a.val < 0.0 then
      Err(DivByZero)
    else
      Ok(Dual(1.0, 0.0))
  }

  /** The base of an exponential or a logarithm: the default natural base e,
      or an explicit one. */
  datatype Base = Natural | Explicit(b: real)

  /** `a.exp(base)`: `base ** a`, so it shares the reflected power's guards.
      The default base e is positive, so `a.exp()` never fails; it follows
      the chain rule d(e^v) = e^v dv, since ln(e) = 1. An explicit base fails
      with DomainError when it is negative, and with DivByZero when it is 0
      and the value is negative. */
  function Exp(e: Analytic, a: Dual, base: Base): (r: Result<Dual>)
    ensures r.Err? <==> base.Explicit? && (base.b < 0.0 || (base.b == 0.0 && a.val < 0.0))
    ensures base.Natural? ==> r.Ok? && r.value.val == e.exp(a.val)
                              && r.value.der == r.value.val * a.der
    ensures base.Explicit? && base.b < 0.0 ==> r == Err(DomainError)
    ensures base.Explicit? && base.b == 0.0 && a.val < 0.0 ==> r == Err(DivByZero)
    ensures base.Explicit? && base.b == 0.0 && a.val == 0.0 ==> r == Ok(Const(1.0))
    ensures base.Explicit? && base.b == 0.0 && a.val > 0.0 ==> r == Ok(Const(0.0))
    ensures base.Explicit? && base.b > 0.0 ==>
              r.Ok? && r.value.val == e.power(base.b, a.val)
              && r.value.der == r.value.val * e.ln(base.b) * a.der
  {
    match base
    case Natural => Ok(Dual(e.exp(a.val), e.exp(a.val) * a.der))
    case Explicit(b) => RPow(e, b, a)
  }

  /** `a.log(base)`. The engine's own guard raises DomainError for a value
      <= 0. Two-argument `math.log` then raises a domain error for a base
      <= 0 and a division by zero for base 1, since ln(1) = 0. Otherwise the
      value is ln(v) / ln(base) and the derivative d / (ln(base) v). */
  function Log(e: Analytic, a: Dual, base: Base): (r: Result<Dual>)
    requires Sound(e)
    ensures r == Err(DomainError) <==> a.val <= 0.0 || (base.Explicit? && base.b <= 0.0)
    ensures r == Err(DivByZero) <==> 0.0 < a.val && base == Explicit(1.0)
    ensures r.Ok? && base.Natural? ==>
              r.value.val == e.ln(a.val) && r.value.der * a.val == a.der
    ensures r.Ok? && base.Explicit? ==>
              r.value.val * e.ln(base.b) == e.ln(a.val)
              && r.value.der * e.ln(base.b) * a.val == a.der
  {
    if a.val <= 0.0 then Err(DomainError)
    else
      match base
      case Natural => Ok(Dual(e.ln(a.val), (1.0 / a.val) * a.der))
      case Explicit(b) =>
        if b <= 0.0 then Err(DomainError)
        else if b == 1.0 then Err(DivByZero)
        else
          var lb := e.ln(b);
          assert lb != 0.0;
          Ok(Dual(e.ln(a.val) / lb, (1.0 / (lb * a.val)) * a.der))
  }

  /** sqrt(1 - v^2), the denominator of the arcsin and arccos derivatives. */
  function Cofactor(e: Analytic, v: real): real {
    e.sqrt(1.0 - v * v)
  }

  /** `a.arcsin()`: DomainError outside [-1, 1], DivByZero at the endpoints
      where the derivative is singular, otherwise the chain rule
      d / sqrt(1 - v^2). */
  function ArcSin(e: Analytic, a: Dual): (r: Result<Dual>)
    requires Sound(e)
    ensures r == Err(DomainError) <==> a.val < -1.0 || 1.0 < a.val
    ensures r == Err(DivByZero) <==> a.val == -1.0 || a.val == 1.0
    ensures r.Ok? <==> -1.0 < a.val < 1.0
    ensures r.Ok? ==> r.value.val == e.asin(a.val)
                      && r.value.der * Cofactor(e, a.val) == a.der
  {
    if !(-1.0 <= a.val <= 1.0) then Err(DomainError)
    else if a.val == 1.0 || a.val == -1.0 then Err(DivByZero)
    else
      Ok(Dual(e.asin(a.val), (1.0 / Cofactor(e, a.val)) * a.der))
  }

  /** `a.arccos()`: the same guards as arcsin, and the chain rule
      -d / sqrt(1 - v^2). */
  function ArcCos(e: Analytic, a: Dual): (r: Result<Dual>)
    requires Sound(e)
    ensures r == Err(DomainError) <==> a.val < -1.0 || 1.0 < a.val
    ensures r == Err(DivByZero) <==> a.val == -1.0 || a.val == 1.0
    ensures r.Ok? <==> -1.0 < a.val < 1.0
    ensures r.Ok? ==> r.value.val == e.acos(a.val)
                      && r.value.der * Cofactor(e, a.val) == -a.der
  {
    if !(-1.0 <= a.val <= 1.0) then Err(DomainError)
    else if a.val == 1.0 || a.val == -1.0 then Err(DivByZero)
    else
      Ok(Dual(e.acos(a.val), (-1.0 / Cofactor(e, a.val)) * a.der))
  }

  /** arcsin and arccos fail on the same inputs with the same error, and where
      they succeed their derivatives cancel, as d(arcsin v + arccos v) = 0. */
  lemma ArcSinArcCosDerivativesCancel(e: Analytic, a: Dual)
    requires Sound(e)
    ensures ArcSin(e, a).Err? <==> ArcCos(e, a).Err?
    ensures ArcSin(e, a).Err? ==> ArcSin(e, a).error == ArcCos(e, a).error
    ensures ArcSin(e, a).Ok? ==> ArcSin(e, a).value.der + ArcCos(e, a).value.der == 0.0
  {
  }

  /** Forward mode is linear in the seed: the chain-rule factor of arcsin
      depends on the value only, so two dual numbers with the same value get
      derivatives in the ratio of their incoming derivatives. */
  lemma ArcSinLinearInSeed(e: Analytic, a: Dual, b: Dual)
    requires Sound(e)
    requires a.val == b.val
    ensures ArcSin(e, a).Ok? ==>
              ArcSin(e, a).value.der * b.der == ArcSin(e, b).value.der * a.der
  {
  }

  /** The same linearity for arccos. */
  lemma ArcCosLinearInSeed(e: Analytic, a: Dual, b: Dual)
    requires Sound(e)
    requires a.val == b.val
    ensures ArcCos(e, a).Ok? ==>
              ArcCos(e, a).value.der * b.der == ArcCos(e, b).value.der * a.der
  {
  }

  /** The same linearity for the logarithm in any base. */
  lemma LogLinearInSeed(e: Analytic, a: Dual, b: Dual, base: Base)
    requires Sound(e)
    requires a.val == b.val
    ensures Log(e, a, base).Ok? ==>
              Log(e, a, base).value.der * b.der == Log(e, b, base).value.der * a.der
  {
  }

  /** The reflected power is linear in the seed too: its failures depend on
      the exponent's value only, and so does its chain-rule factor. */
  lemma RPowLinearInSeed(e: Analytic, n: real, a: Dual, b: Dual)
    requires a.val == b.val
    ensures RPow(e, n, a).Ok? <==> RPow(e, n, b).Ok?
    ensures RPow(e, n, a).Ok? ==>
              RPow(e, n, a).value.val == RPow(e, n, b).value.val
              && RPow(e, n, a).value.der * b.der == RPow(e, n, b).value.der * a.der
  {
  }

  /** Change of base: a logarithm in base b is the natural logarithm divided
      by ln(b), on the value and on the derivative. */
  lemma LogChangeOfBase(e: Analytic, a: Dual, b: real)
    requires Sound(e)
    requires 0.0 < a.val && 0.0 < b && b != 1.0
    ensures Log(e, a, Explicit(b)).Ok? && Log(e, a, Natural).Ok?
    ensures Log(e, a, Explicit(b)).value.val * e.ln(b) == Log(e, a, Natural).value.val
    ensures Log(e, a, Explicit(b)).value.der * e.ln(b) == Log(e, a, Natural).value.der
  {
  }
}

=== FILE: results.dfy ===
/** Failure-carrying results for the operators of the dual-number engine.

    The engine raises instead of returning a value when an operand lies outside
    an operator's domain. Each raised exception becomes an `Err` here, so a
    failing operation yields no dual number at all.
 */
module Results {

  /** The exceptions the engine raises.
      - DomainError: a `ValueError` (log of a non-positive number, inverse
        trigonometry outside [-1, 1], a negative base raised to a dual power).
      - DivByZero: a `ZeroDivisionError` (an exact zero denominator).
      - IndexError: packing an empty list, whose first element is inspected. */
  datatype Error = DomainError | DivByZero | IndexError

  /** Either the operator's result or the exception it raised. */
  datatype Result<+T> = Ok(value: T) | Err(error: Error)
}

=== FILE: scenarios.dfy ===
/** Concrete behaviours of the engine on particular inputs, each stated as a
    lemma over the model. */
module Scenarios {
  import opened Results
  import opened Duals
  import opened Arithmetic
  import opened Elementary

  /** `0 ** Dual(-1, 1)` divides by zero; `(-2) ** Dual(x, 1)` is a domain
      error whatever `x` is; `0 ** Dual(0, d)` is the constant 1 and
      `0 ** Dual(3, d)` the constant 0. */
  lemma ReflectedPowExamples(e: Analytic, x: real, d: real)
    ensures RPow(e, 0.0, Make(-1.0)) == Err(DivByZero)
    ensures RPow(e, -2.0, Make(x)) == Err(DomainError)
    ensures RPow(e, 0.0, Make(0.0, d)) == Ok(Const(1.0))
    ensures RPow(e, 0.0, Make(3.0, d)) == Ok(Const(0.0))
    ensures Exp(e, Make(x, d), Natural).Ok?
    ensures Exp(e, Make(-1.0), Explicit(0.0)) == Err(DivByZero)
  {
  }

  /** `Dual(-1).log()`, `Dual(0).log()` and `Dual(2).log(-1)` are domain
      errors; `Dual(2).log(1)` divides by zero. */
  lemma LogExamples(e: Analytic)
    requires Sound(e)
    ensures Log(e, Make(-1.0), Natural) == Err(DomainError)
    ensures Log(e, Make(0.0), Natural) == Err(DomainError)
    ensures Log(e, Make(2.0), Explicit(-1.0)) == Err(DomainError)
    ensures Log(e, Make(2.0), Explicit(1.0)) == Err(DivByZero)
    ensures Log(e, Make(2.0), Natural).Ok?
  {
  }

  /** `arcsin` and `arccos` divide by zero at both endpoints -1 and 1; 2 is
      outside both domains; at 0 the arcsin derivative of a unit seed is
      1 / sqrt(1). */
  lemma InverseTrigExamples(e: Analytic)
    requires Sound(e)
    ensures ArcSin(e, Make(1.0)) == Err(DivByZero)
    ensures ArcSin(e, Make(-1.0)) == Err(DivByZero)
    ensures ArcCos(e, Make(1.0)) == Err(DivByZero)
    ensures ArcCos(e, Make(-1.0)) == Err(DivByZero)
    ensures ArcSin(e, Make(2.0)) == Err(DomainError)
    ensures ArcCos(e, Make(2.0)) == Err(DomainError)
    ensures ArcSin(e, Make(0.0)).Ok? && ArcSin(e, Make(0.0)).value.der * e.sqrt(1.0) == 1.0
  {
  }

  /** Dividing by the raw 0 or by a dual number whose value is 0 fails, even
      when that dual number has a non-zero derivative. */
  lemma DivisionByZeroExamples(a: Dual)
    ensures Div(a, Raw(0.0)) == Err(DivByZero)
    ensures Div(a, D(Make(0.0))) == Err(DivByZero)
    ensures RDiv(1.0, Make(0.0, 5.0)) == Err(DivByZero)
  {
  }

  /** Packing `[Dual(1, 1), Dual(2, 0)]` gives the value block [1, 2] and the
      derivative block [1, 0]; packing the empty list raises IndexError. */
  lemma PackingExample()
    ensures FromList([Make(1.0, 1.0), Make(2.0, 0.0)]) == Ok(Packed([1.0, 2.0], [1.0, 0.0]))
    ensures FromList([]) == Err(IndexError)
    ensures Make() == Dual(0.0, 1.0)
  {
    var list := [Make(1.0, 1.0), Make(2.0, 0.0)];
    var p := FromList(list).value;
    assert p.vals == [1.0, 2.0];
    assert p.ders == [1.0, 0.0];
  }

  /** Seeding `x = Dual(3, 1)`: `x * x` has derivative 2x = 6, `x ** 3` has
      derivative 3x^2 = 27, and `x - x` is the constant 0. */
  lemma SeedingExample()
    ensures Mul(Make(3.0), D(Make(3.0))) == Dual(9.0, 6.0)
    ensures Pow(Make(3.0), 3) == Dual(27.0, 27.0)
    ensures Sub(Make(3.0), D(Make(3.0))) == Const(0.0)
  {
  }
}
